=== FILE: README.md ===
# process-files pipeline, in Dafny

This project models the Supabase edge function `process-files`. The function:

- accepts a batch of uploaded files and two optional API keys;
- creates a `processing_jobs` row in state `processing`;
- extracts text from each file in turn: PDFs through a local character-level cleaner, audio and video through the Whisper transcription service;
- joins the per-file sections into one combined text;
- asks Gemini's generateContent for a Bengali translation and then for a Bengali summary of that text;
- writes the job as `completed` with all three texts, or as `failed` with the error message.

The model is functional throughout. Every thrown error becomes a `Failure` carrying the message the source builds. Each outside call is a parameter:

- `Externals.Providers` holds the UTF-8 decoder, the transcription `fetch`, the generateContent `fetch` and `response.json()`;
- the job store's answer to each write and the id it assigns on insert are also parameters.

Modules, following the source's structure:

| module | file | what it holds |
|---|---|---|
| `Wrappers` | wrappers.dfy | `Option`, `Result` |
| `Strings` | strings.dfy | `slice(0, n)`, `join`, decimal formatting of a status code, small concatenation facts |
| `Json` | json.dfy | parsed reply bodies, JavaScript truthiness and `?.`, the `candidates[0].content.parts[0].text` check |
| `Externals` | externals.dfy | files, HTTP replies, generateContent requests, the provider oracles, key truthiness |
| `PdfText` | pdf_text.dfy | the PDF branch: sanitize, collapse whitespace, trim, length floor and cut |
| `Extraction` | extraction.dfy | `extractText`: dispatch on the media type |
| `Generation` | generation.dfy | `translateText` and `generateSummary` |
| `Pipeline` | pipeline.dfy | the per-file loop, the combined text, the two generation calls |
| `Jobs` | jobs.dfy | job rows, the completed and failed updates, the store |
| `Submission` | submission.dfy | the request handler: key fallback, validation, job creation, hand-off |

Behaviour of the code worth knowing:

- **Section header.** Each section starts with `"\n--- name ---\n"`, so it begins with a newline.
- **The line-105 floor never fires.** The "No meaningful text" check rejects a combined text only when the batch is empty, and the handler has already refused empty batches. A batch in which every file fails is therefore translated, not failed. `Pipeline.CombinedShortIffEmpty` and `Pipeline.AllFailingStillTranslated` prove this.
- **Missing OpenAI key.** An audio or video file without a key fails only that file. It becomes an error section and the job carries on.
- **Gemini errors.** A non-ok generateContent status is reported with the status alone, not the body. The message carries the call's label twice, e.g. `Translation failed: Translation failed: 500`.
- **Ignored write error.** The store's error in reply to the failed-update is not examined. If that write is refused, the job stays `processing`.
- **Translation and summary are JSON values.** They are whatever truthy value sits at `candidates[0].content.parts[0].text`, not necessarily strings. When they are strings, they are non-empty.

## Model

| member | source | states |
|---|---|---|
| Strings.Prefix | supabase/functions/process-files/index.ts:171 | `slice(0, n)` returns a prefix of its input of length min(len, n) |
| Strings.JoinSnoc | supabase/functions/process-files/index.ts:102 | joining one more part appends the separator and that part at the end, so `join` keeps the parts' order |
| Strings.JoinStartsWithFirst | supabase/functions/process-files/index.ts:102 | a joined text begins with its first part |
| Strings.DecimalString | supabase/functions/process-files/index.ts:202 | a status code is rendered as a non-empty string of decimal digits with no leading zero |
| Strings.DecimalRoundTrip | supabase/functions/process-files/index.ts:202 | the rendered status reads back as the status the reply carried |
| Json.CandidateText | supabase/functions/process-files/index.ts:245-249 | a reply is accepted exactly when the value at `candidates[0].content.parts[0].text` is present and truthy, and the value returned is that one. So the `!data.candidates` guard adds nothing beyond it. A `null` body fails with the runtime's TypeError, and every other rejection with "Invalid response from Gemini API" |
| Json.CandidateTextOfStringText | supabase/functions/process-files/index.ts:245-249 | for any reply holding a string at `candidates[0].content.parts[0].text`, whatever else it carries, a non-empty text is returned unchanged and an empty one is refused with "Invalid response from Gemini API" |
| PdfText.Sanitize | supabase/functions/process-files/index.ts:164 | keeps the length, keeps printable ASCII and newline in place, and turns every other character into a plain space |
| PdfText.Trim | supabase/functions/process-files/index.ts:165 | the result is the contiguous part of the input between its leading and its trailing whitespace, with no whitespace at either end. It is empty exactly when the input is all whitespace, and it keeps printability and single spacing |
| PdfText.CollapseShape | supabase/functions/process-files/index.ts:165 | about `Collapse`, the model of the `replace(/\s+/g, ' ')` on this line: the shape of the collapsed text is empty only for empty input, starting with a space exactly when the input does, its only whitespace plain spaces, never two in a row, and printable when the input held only kept characters |
| PdfText.NonSpaceCollapse | supabase/functions/process-files/index.ts:165 | `Collapse` keeps the input's non-whitespace characters, all of them, in order |
| PdfText.Clean | supabase/functions/process-files/index.ts:164-165 | cleaned PDF text is printable ASCII, has no two consecutive spaces, and has no space at either end |
| PdfText.CleanIsJoinedWords | supabase/functions/process-files/index.ts:164-165 | cleaned text equals the sanitized text's words joined by single spaces, an independent description of lines 164-165 |
| PdfText.TrimEndCollapse | supabase/functions/process-files/index.ts:165 | collapsing and then trimming the end of text that starts with a word gives its words joined by single spaces |
| PdfText.CollapseOfCollapsed | supabase/functions/process-files/index.ts:165 | text whose only whitespace is single plain spaces is left unchanged by the collapse |
| PdfText.CleanIdempotent | supabase/functions/process-files/index.ts:164-165 | cleaning cleaned text changes nothing |
| PdfText.ExtractPdf | supabase/functions/process-files/index.ts:157-174 | succeeds exactly when the cleaned text has at least 50 characters, and then returns a prefix of it of 50 to 50,000 characters, the whole text when shorter than 50,000. The failure is the fixed message under "Failed to extract text from PDF: " |
| PdfText.ExtractPdfShape | supabase/functions/process-files/index.ts:164-171 | the PDF text returned is printable, single-spaced and starts with a non-space. It can end in a space only when the 50,000-character cut fell there |
| Extraction.PdfIsNotMedia | supabase/functions/process-files/index.ts:156-178 | `application/pdf` starts with neither `audio/` nor `video/`, so the dispatch branches do not overlap |
| Extraction.TranscriptionOutcome | supabase/functions/process-files/index.ts:183-210 | transcription succeeds exactly on an ok reply and returns its body verbatim. Otherwise the error starts with "Failed to transcribe audio/video: " and then carries the fetch error, or the status and body |
| Extraction.ExtractText | supabase/functions/process-files/index.ts:151-214 | exactly `application/pdf` takes the PDF path. An audio or video type without a key fails with the unwrapped key message, and with a key goes to the transcriber. Every other type fails as unsupported, naming the type |
| Extraction.ExtractTextSuccess | supabase/functions/process-files/index.ts:151-214 | extracted text is either cleaned PDF text of 50 to 50,000 characters, or the body of an ok transcription reply. No other file yields text |
| Extraction.ExtractTextErrors | supabase/functions/process-files/index.ts:151-214 | the four kinds of extraction error can be told apart by their text alone, each in both directions |
| Generation.RequestFor | supabase/functions/process-files/index.ts:216-235 | a request carries the key, its task, and the first min(len, 30,000) characters of the text |
| Generation.Generate | supabase/functions/process-files/index.ts:216-253 | succeeds exactly when the fetch succeeded, the status is ok, the body parses and the candidate text is present and truthy. The value returned is the reply's `candidates[0].content.parts[0].text`, never empty. A failed fetch, an unparsable body and a reply without a truthy text each fail with the label followed by that error's own message |
| Generation.GenerateOfStringText | supabase/functions/process-files/index.ts:243-249 | an ok reply whose parsed body holds a string at `candidates[0].content.parts[0].text`, whatever else it carries, yields that string when non-empty, and the labelled "Invalid response" error when empty |
| Generation.GenerateRejectsStatus | supabase/functions/process-files/index.ts:237-252 | a non-ok status fails with the label, the label again, and the status in decimal |
| Pipeline.Header | supabase/functions/process-files/index.ts:94 | a section header is the file name between `"\n--- "` and `" ---\n"` |
| Pipeline.SectionStartsWithHeader | supabase/functions/process-files/index.ts:92-99 | about `Section`, the model of these lines: every section, whether it holds the file's text or its error, starts with that file's header |
| Pipeline.Sections | supabase/functions/process-files/index.ts:88-100 | one section per file, in submission order. A failing file does not stop the loop |
| Pipeline.CollectSections | supabase/functions/process-files/index.ts:88-100 | the loop itself produces one section per file, in order: exactly the sequence `Sections` describes |
| Pipeline.CombinedShortIffEmpty | supabase/functions/process-files/index.ts:102-107 | about `Combined`, the model of line 102: the combined text is under 10 characters exactly when the batch is empty. Otherwise it is at least as long as the first name plus 10 |
| Pipeline.CombinedAppend | supabase/functions/process-files/index.ts:102 | about `Combined`: adding a file appends a blank line and its section, and leaves the earlier text unchanged |
| Pipeline.RunPipeline | supabase/functions/process-files/index.ts:86-118 | at most two requests, translation first, both carrying the combined text cut to 30,000 characters and never each other's output. Success needs both, and stores the combined text with two truthy results. An empty batch makes no request |
| Pipeline.RunOutcome | supabase/functions/process-files/index.ts:109-117 | a run succeeds exactly when both calls succeed. The summary is requested only after the translation succeeded, and a failure carries the failing call's labelled error |
| Pipeline.AllFailingStillTranslated | supabase/functions/process-files/index.ts:96-111 | when every file fails extraction, each section is its header plus the error placeholder, and the combined text is still sent for translation |
| Pipeline.SinglePdfCombined | supabase/functions/process-files/index.ts:90-102 | for a single accepted PDF, the combined text is its header followed by its cleaned text |
| Jobs.NewJob | supabase/functions/process-files/index.ts:47-54 | a new row has the file names, status `processing`, and no texts or error |
| Jobs.Apply | supabase/functions/process-files/index.ts:120-147 | the completed-update sets all three texts and the status together. The failed-update sets the error and the status and leaves the texts. Neither changes the file names |
| Jobs.RecordFailure | supabase/functions/process-files/index.ts:136-147 | a failed-update the store accepts marks the job failed with the message. One it refuses leaves the job unchanged |
| Jobs.Finish | supabase/functions/process-files/index.ts:119-147 | a job becomes `completed` exactly when the run succeeded and the store accepted its completed-update, and then holds the run's three texts. A refused completed-update leads to a failure under "Failed to update job: ". A `failed` job keeps its texts |
| Jobs.FinishReachesTerminal | supabase/functions/process-files/index.ts:119-147 | with an accepting store, a `processing` job ends in exactly one terminal state, matching the run's outcome |
| Jobs.FinishIsAllOrNothing | supabase/functions/process-files/index.ts:119-147 | whatever the store answers, the job is completed with all three texts, or failed with its texts untouched, or unchanged |
| Jobs.RunJob | supabase/functions/process-files/index.ts:79-149 | the background run writes only its own row, keeps that row's file names, and leaves every other row and the set of ids unchanged |
| Submission.ResolveKey | supabase/functions/process-files/index.ts:29-30 | the user's key is used when non-empty, otherwise the environment's. A usable key results exactly when either one is usable |
| Submission.FileNames | supabase/functions/process-files/index.ts:50 | the names of the files, one per file, in order |
| Submission.Submit | supabase/functions/process-files/index.ts:29-61 | a missing Gemini key is rejected first, then an empty batch, then an insert error. A request with a usable key, a non-empty batch and a successful insert is accepted, and a `processing` row with the file names is added under the store's id |
| Submission.Handle | supabase/functions/process-files/index.ts:16-76 | a rejected request leaves the store untouched. An accepted one returns the new id, adds exactly that row, and leaves other rows alone |
| Submission.RejectionsComeFirst | supabase/functions/process-files/index.ts:32-44 | without a Gemini key, or with an empty batch, nothing is written and the caller gets the matching message |
| Submission.HandleEndToEnd | supabase/functions/process-files/index.ts:61-64 | with an accepting store, an accepted job ends `completed` exactly when both Gemini calls succeed on the combined text, and then holds that text as its transcription and the two calls' values as its translation and summary. Otherwise it ends `failed` with a Gemini error, never the "No meaningful text" error |

## Left out

- Network and storage I/O: Whisper, generateContent and the Supabase client are parameters. Request timeouts, retries and Deno's `serve` are not modelled.
- CORS handling: the `OPTIONS` pre-flight reply and the response headers are not modelled. The reply is only `JobCreated(id)` or `ServerError(message)`.
- Every `files` entry is taken to be a `File`. The cast at line 20 is unchecked, so a plain string entry would give a section headed `undefined` holding the TypeError that line 178 throws on its missing type. `InputFile` cannot express such an entry.
- `TextDecoder('utf-8')` is the parameter `decodeUtf8`. Its replacement of malformed bytes is not modelled.
- Reading a PDF's bytes with `file.arrayBuffer()` (line 158) is assumed to succeed. In the source it sits inside the PDF branch's try, so a rejected read would fail the file under "Failed to extract text from PDF: " with the read's own message rather than the fixed one.
- The fire-and-forget call at line 64: `Submission.Handle` runs the background job to its end before returning. Concurrency between jobs, `updated_at` timestamps and `console` logging are not modelled.
- Prompt wording, temperature and `maxOutputTokens` are not modelled. A request records only the key, which of the two prompts it uses, and the text excerpt.
- `response.text()` is assumed to succeed on any reply, ok or not, from either service. A failure to read the body would reach the source's catch and be reported under the same prefix or label.
- Errors that are not `Error` objects ("Unknown error occurred") cannot arise in the model, since every failure carries a message.
- JSON numbers are exact reals. Property reads consult only the parsed object's own fields, not inherited ones such as `constructor`.
- PdfText.Sanitize: characters are Unicode scalar values, not UTF-16 code units. A character outside the Basic Multilingual Plane becomes one space here and two in the source. The collapse makes the cleaned text identical either way, but lone surrogates cannot be represented.
- Generation.RequestFor: cuts the text at 30,000 Unicode characters, while `slice(0, 30000)` counts UTF-16 code units. On text with characters outside the Basic Multilingual Plane the source sends fewer characters, and its cut can split a surrogate pair, which a Dafny string cannot hold. File names, transcripts and error texts can all carry such characters into the combined text. The line-105 length check also counts code units. It only rejects an empty batch either way, since a code-unit length is never shorter than the character length.
- Submission.Handle: the insert's id is taken to be new, as the table's generated primary key makes it. Were the store to return an id it already held, `store[id := ...]` would replace that row, and "adds exactly that row" would be a replacement.
- Jobs.RunJob: requires the job to be `processing`, as the row the handler has just created always is.
- The browser client, its polling of the job row, and the other upload endpoint drafts are not part of this model.

=== FILE: externals.dfy ===
/**
 * What the pipeline receives from, and sends to, the world outside it: uploaded files,
 * HTTP replies, the two providers' requests, and the deterministic library calls it leans on.
 */
module Externals {
  import opened Wrappers
  import Json

  newtype byte = x: int | 0 <= x < 256

  /** An uploaded `File`: `file.name`, `file.type` and its bytes. */
  datatype InputFile = InputFile(name: string, mediaType: string, content: seq<byte>)

  /** What a `fetch` resolved to: `response.status` and the body read as text. */
  datatype HttpReply = HttpReply(status: nat, body: string)

  /** `response.ok` */
  predicate IsOk(reply: HttpReply) {
    200 <= reply.status <= 299
  }

  /** Which of the two fixed generateContent prompts (with its temperature) a request carries. */
  datatype Task = Translation | Summary

  /** One generateContent call: the key placed in the URL, the prompt kind, and the text appended to the prompt. */
  datatype GenerateRequest = GenerateRequest(apiKey: string, task: Task, excerpt: string)

  /**
   * The outside calls. A `Failure` from `transcribe` or `generate` is a `fetch` that threw;
   * one from `parseJson` is a body `response.json()` rejected. `decodeUtf8` is `TextDecoder('utf-8')`.
   */
  datatype Providers = Providers(
    decodeUtf8: seq<byte> -> string,
    transcribe: (string, InputFile) -> Result<HttpReply, string>,
    generate: GenerateRequest -> Result<HttpReply, string>,
    parseJson: string -> Result<Json.Value, string>)

  /** JavaScript truthiness of a key of type `string | null | undefined`. */
  predicate Present(key: Option<string>) {
    key.Some? && key.value != ""
  }
}

=== FILE: extraction.dfy ===
/**
 * extractText: route one uploaded file by its media type to the PDF cleaner, to the
 * transcription service, or to a rejection. Every outcome is a `Result`; a thrown
 * error is a `Failure` carrying the error's message.
 */
module Extraction {
  import opened Wrappers
  import opened Strings
  import opened Externals
  import PdfText

  const PdfType := "application/pdf"
  const AudioPrefix := "audio/"
  const VideoPrefix := "video/"

  // Long messages are written in two pieces so that the verifier can read their first characters.
  const MissingOpenAiKey := "OpenAI API key is required " + "for audio/video transcription. Please provide it in settings."
  const TranscribeFailurePrefix := "Failed to transcribe audio/video: "
  const WhisperFailedPrefix := "Whisper API failed: "
  const UnsupportedPrefix := "Unsupported file type: "
  const UnsupportedSuffix := ". Supported types: PDF, audio, and video files."

  /** Line 178: the types sent to the transcription service. */
  predicate IsAudioOrVideo(mediaType: string) {
    StartsWith(mediaType, AudioPrefix) || StartsWith(mediaType, VideoPrefix)
  }

  /** The PDF type is not an audio or video type, so the order of the checks at lines 156 and 178 does not matter. */
  lemma PdfIsNotMedia()
    ensures !IsAudioOrVideo(PdfType)
  {
    assert PdfType[1] != AudioPrefix[1];
    assert PdfType[0] != VideoPrefix[0];
  }

  /** `${n} - ${text}` after the transcription service's failure prefix, as line 202 formats it. */
  function WhisperFailure(reply: HttpReply): string {
    WhisperFailedPrefix + DecimalString(reply.status) + " - " + reply.body
  }

  /**
   * Lines 183-210: the try block around the transcription call, given what `fetch` produced.
   * An ok reply's body is the transcription; anything else is an error under one prefix.
   */
  function TranscriptionOutcome(fetched: Result<HttpReply, string>): (r: Result<string, string>)
    ensures r.Success? <==> fetched.Success? && IsOk(fetched.value)
    ensures r.Success? ==> r.value == fetched.value.body
    ensures r.Failure? ==> StartsWith(r.error, TranscribeFailurePrefix)
    ensures fetched.Success? && !IsOk(fetched.value) ==>
      r.error[|TranscribeFailurePrefix|..] == WhisperFailure(fetched.value)
    ensures fetched.Failure? ==> r.error[|TranscribeFailurePrefix|..] == fetched.error
  {
    match fetched
    case Failure(m) => Failure(TranscribeFailurePrefix + m)
    case Success(reply) =>
      if !IsOk(reply) then Failure(TranscribeFailurePrefix + WhisperFailure(reply))
      else Success(reply.body)
  }

  /** Lines 151-214: the text of one uploaded file, or the message of the error extracting it throws. */
  function ExtractText(file: InputFile, openAiKey: Option<string>, p: Providers): (r: Result<string, string>)
    ensures file.mediaType == PdfType ==> r == PdfText.ExtractPdf(p.decodeUtf8(file.content))
    ensures IsAudioOrVideo(file.mediaType) && !Present(openAiKey) ==> r == Failure(MissingOpenAiKey)
    ensures IsAudioOrVideo(file.mediaType) && Present(openAiKey) ==>
      r == TranscriptionOutcome(p.transcribe(openAiKey.value, file))
    ensures file.mediaType != PdfType && !IsAudioOrVideo(file.mediaType) ==>
      r == Failure(UnsupportedPrefix + file.mediaType + UnsupportedSuffix)
  {
    PdfIsNotMedia();
    if file.mediaType == PdfType then
      PdfText.ExtractPdf(p.decodeUtf8(file.content))
    else if IsAudioOrVideo(file.mediaType) then
      if !Present(openAiKey) then Failure(MissingOpenAiKey)
      else TranscriptionOutcome(p.transcribe(openAiKey.value, file))
    else
      Failure(UnsupportedPrefix + file.mediaType + UnsupportedSuffix)
  }

  /** The transcription service is called only for audio and video files, and only with a key. */
  predicate Transcribes(file: InputFile, openAiKey: Option<string>) {
    IsAudioOrVideo(file.mediaType) && Present(openAiKey)
  }

  /**
   * What a successful extraction returns: for a PDF, cleaned text of 50 to 50,000 characters
   * taken from the front of the cleaned file; for audio or video, the body of an ok reply from
   * the transcription service. No other file yields text.
   */
  lemma ExtractTextSuccess(file: InputFile, openAiKey: Option<string>, p: Providers)
    requires ExtractText(file, openAiKey, p).Success?
    ensures var v := ExtractText(file, openAiKey, p).value;
      || (file.mediaType == PdfType
          && PdfText.MinTextChars <= |v| <= PdfText.MaxTextChars
          && v <= PdfText.Clean(p.decodeUtf8(file.content)))
      || (Transcribes(file, openAiKey)
          && p.transcribe(openAiKey.value, file).Success?
          && IsOk(p.transcribe(openAiKey.value, file).value)
          && v == p.transcribe(openAiKey.value, file).value.body)
  {
  }

  /**
   * Every extraction error is one of four kinds, told apart by its first characters: the PDF
   * cleaner's, the missing-key rejection, the transcription failure, and the unsupported type.
   */
  lemma ExtractTextErrors(file: InputFile, openAiKey: Option<string>, p: Providers)
    requires ExtractText(file, openAiKey, p).Failure?
    ensures var e := ExtractText(file, openAiKey, p).error;
      && (file.mediaType == PdfType <==> e == PdfText.FailurePrefix + PdfText.NoTextMessage)
      && (IsAudioOrVideo(file.mediaType) && !Present(openAiKey) <==> e == MissingOpenAiKey)
      && (Transcribes(file, openAiKey) <==> StartsWith(e, TranscribeFailurePrefix))
      && (file.mediaType != PdfType && !IsAudioOrVideo(file.mediaType) <==> StartsWith(e, UnsupportedPrefix))
  {
    var e := ExtractText(file, openAiKey, p).error;
    PdfIsNotMedia();
    var pdfError := PdfText.FailurePrefix + PdfText.NoTextMessage;
    assert pdfError[0] == 'F' && pdfError[10] == 'e';
    assert MissingOpenAiKey[0] == 'O';
    assert TranscribeFailurePrefix[0] == 'F' && TranscribeFailurePrefix[10] == 't';
    assert UnsupportedPrefix[0] == 'U';
    if StartsWith(e, TranscribeFailurePrefix) {
      assert e[0] == 'F' && e[10] == 't';
    }
    if StartsWith(e, UnsupportedPrefix) {
      assert e[0] == 'U';
    }
  }
}

=== FILE: generation.dfy ===
/**
 * translateText and generateSummary: one generateContent call each, on at most the first
 * 30,000 characters of the text, accepted only when the reply is ok and carries a truthy
 * `candidates[0].content.parts[0].text`. Every error leaves under the call's own label.
 */
module Generation {
  import opened Wrappers
  import opened Strings
  import opened Externals
  import Json

  /** Lines 226 and 271: `text.slice(0, 30000)` */
  const MaxPromptChars := 30000

  /** The message prefix of the try block's own catch (lines 251 and 296), and of a non-ok status (lines 240 and 285). */
  function Label(task: Task): string {
    match task
    case Translation => "Translation failed: "
    case Summary => "Summary generation failed: "
  }

  /** The request each call sends: the key, its prompt, and the front of the text. */
  function RequestFor(task: Task, text: string, apiKey: string): (q: GenerateRequest)
    ensures q.task == task && q.apiKey == apiKey
    ensures |q.excerpt| <= MaxPromptChars && q.excerpt <= text
    ensures |text| <= MaxPromptChars ==> q.excerpt == text
    ensures |text| > MaxPromptChars ==> |q.excerpt| == MaxPromptChars
  {
    GenerateRequest(apiKey, task, Prefix(text, MaxPromptChars))
  }

  /**
   * Lines 216-253 (Translation) and 255-298 (Summary). The catch re-wraps whatever the try
   * threw, so a non-ok status carries the label twice.
   */
  function Generate(task: Task, text: string, apiKey: string, p: Providers): (r: Result<Json.Value, string>)
    ensures r.Success? ==> Json.Truthy(Some(r.value))
    ensures r.Success? && r.value.Str? ==> r.value.s != ""
    ensures r.Failure? ==> StartsWith(r.error, Label(task))
    ensures var fetched := p.generate(RequestFor(task, text, apiKey));
      r.Success? <==>
        && fetched.Success?
        && IsOk(fetched.value)
        && p.parseJson(fetched.value.body).Success?
        && Json.CandidateText(p.parseJson(fetched.value.body).value).Success?
    ensures var fetched := p.generate(RequestFor(task, text, apiKey));
      r.Success? ==> Json.TextAt(p.parseJson(fetched.value.body).value) == Some(r.value)
    ensures var fetched := p.generate(RequestFor(task, text, apiKey));
      fetched.Failure? ==> r == Failure(Label(task) + fetched.error)
    ensures var fetched := p.generate(RequestFor(task, text, apiKey));
      fetched.Success? && IsOk(fetched.value) && p.parseJson(fetched.value.body).Failure? ==>
        r == Failure(Label(task) + p.parseJson(fetched.value.body).error)
    ensures var fetched := p.generate(RequestFor(task, text, apiKey));
      fetched.Success? && IsOk(fetched.value) && p.parseJson(fetched.value.body).Success? && r.Failure? ==>
        r == Failure(Label(task) + Json.CandidateText(p.parseJson(fetched.value.body).value).error)
  {
    match p.generate(RequestFor(task, text, apiKey))
    case Failure(m) => Failure(Label(task) + m)
    case Success(reply) =>
      if !IsOk(reply) then Failure(Label(task) + Label(task) + DecimalString(reply.status))
      else
        match p.parseJson(reply.body)
        case Failure(m) => Failure(Label(task) + m)
        case Success(data) =>
          match Json.CandidateText(data)
          case Failure(m) => Failure(Label(task) + m)
          case Success(v) => Success(v)
  }

  /**
   * An ok reply whose parsed body holds a string at `candidates[0].content.parts[0].text`, whatever
   * else it carries, yields exactly that string when it is non-empty; an empty one is refused
   * under the call's label.
   */
  lemma GenerateOfStringText(task: Task, text: string, apiKey: string, p: Providers, t: string)
    requires p.generate(RequestFor(task, text, apiKey)).Success?
    requires IsOk(p.generate(RequestFor(task, text, apiKey)).value)
    requires p.parseJson(p.generate(RequestFor(task, text, apiKey)).value.body).Success?
    requires Json.TextAt(p.parseJson(p.generate(RequestFor(task, text, apiKey)).value.body).value) == Some(Json.Str(t))
    ensures t != "" ==> Generate(task, text, apiKey, p) == Success(Json.Str(t))
    ensures t == "" ==> Generate(task, text, apiKey, p) == Failure(Label(task) + Json.InvalidResponse)
  {
    Json.CandidateTextOfStringText(p.parseJson(p.generate(RequestFor(task, text, apiKey)).value.body).value, t);
  }

  /** A status outside 200-299 fails with the label twice and then the status in decimal. */
  lemma GenerateRejectsStatus(task: Task, text: string, apiKey: string, p: Providers)
    requires p.generate(RequestFor(task, text, apiKey)).Success?
    requires !IsOk(p.generate(RequestFor(task, text, apiKey)).value)
    ensures var e := Generate(task, text, apiKey, p).error;
      var status := p.generate(RequestFor(task, text, apiKey)).value.status;
      && e[..|Label(task)|] == Label(task)
      && e[|Label(task)|..] == Label(task) + DecimalString(status)
  {
    var e := Generate(task, text, apiKey, p).error;
    var status := p.generate(RequestFor(task, text, apiKey)).value.status;
    AppendAssoc(Label(task), Label(task), DecimalString(status));
    AppendParts(Label(task), Label(task) + DecimalString(status));
  }
}

=== FILE: jobs.dfy ===
/**
 * The `processing_jobs` rows and the writes processFilesBackground makes to them: a job is
 * created `processing`, and a run ends with one completed-update or, on any error, one
 * failed-update. The store's own answer to a write is a parameter: `None` when the write
 * succeeded, `Some(message)` when it reported an error.
 */
module Jobs {
  import opened Wrappers
  import opened Externals
  import Json
  import Pipeline

  datatype Status = Processing | Completed | Failed

  /** One row of `processing_jobs`, without its id and timestamps. */
  datatype Job = Job(
    fileNames: seq<string>,
    status: Status,
    transcription: Option<string>,
    translation: Option<Json.Value>,
    summary: Option<Json.Value>,
    error: Option<string>)

  type JobId = string

  /** Lines 47-54: the row the submission inserts. */
  function NewJob(fileNames: seq<string>): (j: Job)
    ensures j.fileNames == fileNames && j.status == Processing
    ensures j.transcription.None? && j.translation.None? && j.summary.None? && j.error.None?
  {
    Job(fileNames, Processing, None, None, None, None)
  }

  /** The two updates a run can send. */
  datatype Update =
    | CompleteWith(artifacts: Pipeline.Artifacts)
    | FailWith(message: string)

  /**
   * What an update that the store accepted does to the row. The completed-update (lines 120-129)
   * sets the three texts and the status together; the failed-update (lines 140-147) sets the
   * error and the status and leaves the texts as they were. Neither touches the file names.
   */
  function Apply(job: Job, u: Update): (j: Job)
    ensures j.fileNames == job.fileNames
    ensures u.CompleteWith? ==>
      && j.status == Completed
      && j.transcription == Some(u.artifacts.transcription)
      && j.translation == Some(u.artifacts.translation)
      && j.summary == Some(u.artifacts.summary)
      && j.error == job.error
    ensures u.FailWith? ==>
      && j.status == Failed
      && j.error == Some(u.message)
      && j.transcription == job.transcription
      && j.translation == job.translation
      && j.summary == job.summary
  {
    match u
    case CompleteWith(a) =>
      job.(status := Completed, transcription := Some(a.transcription),
           translation := Some(a.translation), summary := Some(a.summary))
    case FailWith(m) => job.(status := Failed, error := Some(m))
  }

  const UpdateFailedPrefix := "Failed to update job: "

  /** Lines 136-147: the failed-update; the store's error in reply to it is not looked at. */
  function RecordFailure(job: Job, message: string, write: Update -> Option<string>): (j: Job)
    ensures write(FailWith(message)).None? ==> j == Apply(job, FailWith(message))
    ensures write(FailWith(message)).Some? ==> j == job
  {
    if write(FailWith(message)).None? then Apply(job, FailWith(message)) else job
  }

  /**
   * Lines 119-147: how a run's outcome reaches the row, which is `processing` when the run
   * starts. A successful run is written as
   * completed; if the store rejects that write, its error becomes the run's error. A failed run
   * is written as failed.
   */
  function Finish(job: Job, outcome: Result<Pipeline.Artifacts, string>, write: Update -> Option<string>): (j: Job)
    requires job.status == Processing
    ensures j.fileNames == job.fileNames
    ensures j.status == Completed ==>
      && outcome.Success?
      && write(CompleteWith(outcome.value)).None?
      && j == Apply(job, CompleteWith(outcome.value))
    ensures j.status == Failed ==>
      && j.error.Some?
      && j.transcription == job.transcription
      && j.translation == job.translation
      && j.summary == job.summary
    ensures outcome.Failure? ==> j == RecordFailure(job, outcome.error, write)
    ensures outcome.Success? && write(CompleteWith(outcome.value)).None? ==>
      j == Apply(job, CompleteWith(outcome.value))
    ensures outcome.Success? && write(CompleteWith(outcome.value)).Some? ==>
      j == RecordFailure(job, UpdateFailedPrefix + write(CompleteWith(outcome.value)).value, write)
  {
    match outcome
    case Success(a) =>
      (match write(CompleteWith(a))
       case None => Apply(job, CompleteWith(a))
       case Some(e) => RecordFailure(job, UpdateFailedPrefix + e, write))
    case Failure(m) => RecordFailure(job, m, write)
  }

  /** A store that accepts every write. */
  function Accepting(): Update -> Option<string> {
    u => None
  }

  /**
   * With a store that accepts its writes, a `processing` job ends in exactly one terminal state:
   * completed with the run's three texts when the run succeeded, failed with its error otherwise.
   */
  lemma FinishReachesTerminal(job: Job, outcome: Result<Pipeline.Artifacts, string>)
    requires job.status == Processing
    ensures var j := Finish(job, outcome, Accepting());
      && (j.status == Completed <==> outcome.Success?)
      && (j.status == Failed <==> outcome.Failure?)
      && (outcome.Success? ==> j.transcription == Some(outcome.value.transcription))
      && (outcome.Failure? ==> j.error == Some(outcome.error))
  {
  }

  /**
   * Whatever the store answers, a finished job is never left with a half-written result: it is
   * completed with all three texts, failed with an error and its texts untouched, or, when even
   * the failed-update was refused, exactly as it was.
   */
  lemma FinishIsAllOrNothing(job: Job, outcome: Result<Pipeline.Artifacts, string>, write: Update -> Option<string>)
    requires job.status == Processing
    ensures var j := Finish(job, outcome, write);
      || (j.status == Completed && j.transcription.Some? && j.translation.Some? && j.summary.Some?)
      || (j.status == Failed && j.error.Some? && j.transcription == job.transcription
          && j.translation == job.translation && j.summary == job.summary)
      || j == job
  {
  }

  /** The rows, by id. */
  type JobStore = map<JobId, Job>

  /**
   * processFilesBackground for the job `id`, which the submission has just created: run the
   * pipeline and write its outcome to that row. No other row changes.
   */
  function RunJob(store: JobStore, id: JobId, files: seq<InputFile>, geminiKey: string,
                  openAiKey: Option<string>, p: Providers, write: Update -> Option<string>): (s: JobStore)
    requires id in store && store[id].status == Processing
    ensures s.Keys == store.Keys
    ensures forall k :: k in store && k != id ==> s[k] == store[k]
    ensures s[id].fileNames == store[id].fileNames
    ensures s[id] == Finish(store[id], Pipeline.RunPipeline(files, geminiKey, openAiKey, p).outcome, write)
  {
    store[id := Finish(store[id], Pipeline.RunPipeline(files, geminiKey, openAiKey, p).outcome, write)]
  }
}

=== FILE: json.dfy ===
/**
 * The parsed body of a generateContent reply, and the check translateText and
 * generateSummary apply to it before taking `candidates[0].content.parts[0].text`.
 * Property reads follow JavaScript: a missing property is `undefined` (here `None`),
 * `?.` stops at `null` or `undefined`, and only `null`, `false`, `0`, `""` and
 * `undefined` are falsy.
 */
module Json {
  import opened Wrappers

  /** A value `JSON.parse` can produce. */
  datatype Value =
    | Null
    | Bool(b: bool)
    | Number(n: real)
    | Str(s: string)
    | Array(items: seq<Value>)
    | Object(fields: map<string, Value>)

  const InvalidResponse := "Invalid response from Gemini API"

  /** The TypeError the runtime throws for `data.candidates` when `data` is `null`. */
  const NullCandidatesRead := "Cannot read properties of null (reading 'candidates')"

  /** JavaScript truthiness; `None` is `undefined`. Arrays and objects are truthy even when empty. */
  predicate Truthy(v: Option<Value>) {
    match v
    case None => false
    case Some(Null) => false
    case Some(Bool(b)) => b
    case Some(Number(n)) => n != 0.0
    case Some(Str(s)) => s != ""
    case Some(_) => true
  }

  /** `v.name` on a non-null value, for the names the check reads (none is inherited from a prototype). */
  function Field(v: Value, name: string): Option<Value> {
    match v
    case Object(m) => if name in m then Some(m[name]) else None
    case _ => None
  }

  /** `v[0]` on a non-null value: an array's first element, an object's property "0", a string's first character. */
  function First(v: Value): Option<Value> {
    match v
    case Array(a) => if |a| > 0 then Some(a[0]) else None
    case Object(m) => if "0" in m then Some(m["0"]) else None
    case Str(s) => if |s| > 0 then Some(Str(s[..1])) else None
    case _ => None
  }

  /** `x?.name` */
  function ChainField(x: Option<Value>, name: string): Option<Value> {
    if x.None? || x.value.Null? then None else Field(x.value, name)
  }

  /** `x?.[0]` */
  function ChainFirst(x: Option<Value>): Option<Value> {
    if x.None? || x.value.Null? then None else First(x.value)
  }

  /** `data?.candidates?.[0]?.content?.parts?.[0]?.text`: what sits at the path, read without ever throwing. */
  function TextAt(data: Value): Option<Value> {
    var candidate := ChainFirst(ChainField(Some(data), "candidates"));
    ChainField(ChainFirst(ChainField(ChainField(candidate, "content"), "parts")), "text")
  }

  /** The body's `candidates[0].content.parts[0].text`, or the error the source throws when it is missing or falsy. */
  function CandidateText(data: Value): (r: Result<Value, string>)
    ensures r.Success? <==> Truthy(TextAt(data))
    ensures r.Success? ==> TextAt(data) == Some(r.value)
    ensures r.Success? ==> Truthy(Some(r.value))
    ensures r.Success? && r.value.Str? ==> r.value.s != ""
    ensures r.Failure? ==> r.error == (if data.Null? then NullCandidatesRead else InvalidResponse)
    ensures data.Object? && "candidates" !in data.fields ==> r.Failure?
  {
    if data.Null? then Failure(NullCandidatesRead)
    else
      var candidates := Field(data, "candidates");
      if !Truthy(candidates) then Failure(InvalidResponse)
      else
        var content := ChainField(First(candidates.value), "content");
        var text := ChainField(ChainFirst(ChainField(content, "parts")), "text");
        if Truthy(text) then Success(text.value) else Failure(InvalidResponse)
  }

  /**
   * Whatever else the reply carries (`role`, `finishReason`, `usageMetadata`, more candidates),
   * a string at `candidates[0].content.parts[0].text` decides it: a non-empty one is returned
   * unchanged and an empty one is refused.
   */
  lemma CandidateTextOfStringText(data: Value, t: string)
    requires TextAt(data) == Some(Str(t))
    ensures CandidateText(data) == (if t == "" then Failure(InvalidResponse) else Success(Str(t)))
  {
  }
}

=== FILE: pdf_text.dfy ===
/**
 * The PDF branch of extractText. The decoded file text has every character outside
 * printable ASCII and newline replaced by a space (`replace(/[^\x20-\x7E\n]/g, ' ')`),
 * every run of whitespace collapsed to one space (`replace(/\s+/g, ' ')`) and both ends
 * trimmed; it is then accepted only with at least 50 characters, and cut to 50,000.
 */
module PdfText {
  import opened Wrappers
  import opened Strings

  const MinTextChars := 50
  const MaxTextChars := 50000

  const FailurePrefix := "Failed to extract text from PDF: "
  const NoTextMessage := "PDF appears to be empty or contains only images. Please provide a PDF with text content."

  /** The characters JavaScript's `\s` matches, which are also those `trim()` removes. */
  predicate IsSpace(c: char) {
    var k := c as int;
    || (0x09 <= k <= 0x0D) || k == 0x20 || k == 0xA0 || k == 0x1680 || (0x2000 <= k <= 0x200A)
    || k == 0x2028 || k == 0x2029 || k == 0x202F || k == 0x205F || k == 0x3000 || k == 0xFEFF
  }

  predicate IsPrintableAscii(c: char) {
    0x20 <= c as int <= 0x7E
  }

  /** The characters the class `[^\x20-\x7E\n]` does not match. */
  predicate IsKept(c: char) {
    IsPrintableAscii(c) || c == '\n'
  }

  predicate AllPrintable(s: string) {
    forall i :: 0 <= i < |s| ==> IsPrintableAscii(s[i])
  }

  predicate AllKept(s: string) {
    forall i :: 0 <= i < |s| ==> IsKept(s[i])
  }

  predicate NoSpaceIn(s: string) {
    forall i :: 0 <= i < |s| ==> !IsSpace(s[i])
  }

  /** No two adjacent whitespace characters. */
  predicate NoSpaceRun(s: string) {
    forall i, j :: 0 <= i < |s| && 0 <= j < |s| && j == i + 1 ==> !IsSpace(s[i]) || !IsSpace(s[j])
  }

  /** The shape of cleaned text: printable ASCII, single spaces only, none at either end. */
  predicate IsNormal(s: string) {
    && AllPrintable(s)
    && NoSpaceRun(s)
    && (s == [] || (!IsSpace(s[0]) && !IsSpace(s[|s| - 1])))
  }

  // ---------------------------------------------------------------------------
  // The three string steps of lines 164-165
  // ---------------------------------------------------------------------------

  /** Line 164: each character outside printable ASCII and newline becomes a space. */
  function Sanitize(s: string): (r: string)
    ensures |r| == |s|
    ensures AllKept(r)
    ensures forall i :: 0 <= i < |s| && IsKept(s[i]) ==> r[i] == s[i]
    ensures forall i :: 0 <= i < |s| && !IsKept(s[i]) ==> r[i] == ' '
  {
    seq(|s|, i requires 0 <= i < |s| => if IsKept(s[i]) then s[i] else ' ')
  }

  /** The length of the run of whitespace `s` starts with. */
  function LeadingSpaces(s: string): (n: nat)
    ensures n <= |s|
    ensures forall i :: 0 <= i < n ==> IsSpace(s[i])
    ensures n < |s| ==> !IsSpace(s[n])
    decreases |s|
  {
    if s != [] && IsSpace(s[0]) then 1 + LeadingSpaces(s[1..]) else 0
  }

  /** The length of the run of whitespace `s` ends with. */
  function TrailingSpaces(s: string): (n: nat)
    ensures n <= |s|
    ensures forall i :: |s| - n <= i < |s| ==> IsSpace(s[i])
    ensures n < |s| ==> !IsSpace(s[|s| - n - 1])
    decreases |s|
  {
    if s != [] && IsSpace(s[|s| - 1]) then 1 + TrailingSpaces(s[..|s| - 1]) else 0
  }

  /** `s.trimStart()` */
  function TrimStart(s: string): string {
    s[LeadingSpaces(s)..]
  }

  /** `s.trimEnd()` */
  function TrimEnd(s: string): string {
    s[..|s| - TrailingSpaces(s)]
  }

  /** `s.trim()`: what is left has no whitespace at either end, and keeps the alphabet and spacing of `s`. */
  function Trim(s: string): (r: string)
    ensures LeadingSpaces(s) + |r| <= |s|
    ensures r == s[LeadingSpaces(s)..LeadingSpaces(s) + |r|]
    ensures forall i :: LeadingSpaces(s) + |r| <= i < |s| ==> IsSpace(s[i])
    ensures r == [] || (!IsSpace(r[0]) && !IsSpace(r[|r| - 1]))
    ensures r == [] <==> forall i :: 0 <= i < |s| ==> IsSpace(s[i])
    ensures AllPrintable(s) ==> AllPrintable(r)
    ensures NoSpaceRun(s) ==> NoSpaceRun(r)
  {
    var t := TrimStart(s);
    var r := TrimEnd(t);
    assert forall i :: 0 <= i < |r| ==> r[i] == s[LeadingSpaces(s) + i];
    r
  }

  /** Line 165's `replace(/\s+/g, ' ')`: each maximal run of whitespace becomes one space. */
  function Collapse(s: string): string
    decreases |s|
  {
    if s == [] then []
    else if IsSpace(s[0]) then [' '] + Collapse(TrimStart(s))
    else [s[0]] + Collapse(s[1..])
  }

  /**
   * What the collapsed text looks like: empty only for empty input, starting with a space
   * exactly when the input does, every whitespace character a plain space, never two in a
   * row, and printable when the input held only kept characters.
   */
  lemma {:induction false} CollapseShape(s: string)
    ensures var r := Collapse(s);
      && (r == [] <==> s == [])
      && (s != [] ==> r[0] == (if IsSpace(s[0]) then ' ' else s[0]))
      && (forall i :: 0 <= i < |r| && IsSpace(r[i]) ==> r[i] == ' ')
      && NoSpaceRun(r)
      && (AllKept(s) ==> AllPrintable(r))
    decreases |s|
  {
    if s != [] {
      var t := if IsSpace(s[0]) then TrimStart(s) else s[1..];
      CollapseShape(t);
      var x := Collapse(t);
      var r := Collapse(s);
      assert r == [r[0]] + x;
      assert forall i :: 1 <= i < |r| ==> r[i] == x[i - 1];
      if IsSpace(s[0]) && x != [] {
        assert !IsSpace(x[0]) by {
          assert t[0] == s[LeadingSpaces(s)];
        }
      }
    }
  }

  /** The non-whitespace characters of `s`, in order. */
  function NonSpace(s: string): string
    decreases |s|
  {
    if s == [] then [] else (if IsSpace(s[0]) then [] else [s[0]]) + NonSpace(s[1..])
  }

  lemma {:induction false} NonSpaceTrimStart(s: string)
    ensures NonSpace(TrimStart(s)) == NonSpace(s)
    decreases |s|
  {
    if s != [] && IsSpace(s[0]) {
      NonSpaceTrimStart(s[1..]);
      assert LeadingSpaces(s) == 1 + LeadingSpaces(s[1..]);
      assert TrimStart(s) == TrimStart(s[1..]);
    }
  }

  lemma NonSpaceCons(c: char, x: string)
    ensures NonSpace([c] + x) == (if IsSpace(c) then [] else [c]) + NonSpace(x)
  {
    assert ([c] + x)[1..] == x;
  }

  /** Collapsing whitespace keeps every other character, in order: only whitespace is merged. */
  lemma {:induction false} NonSpaceCollapse(s: string)
    ensures NonSpace(Collapse(s)) == NonSpace(s)
    decreases |s|
  {
    if s != [] {
      if IsSpace(s[0]) {
        NonSpaceCollapse(TrimStart(s));
        NonSpaceTrimStart(s);
        NonSpaceCons(' ', Collapse(TrimStart(s)));
      } else {
        NonSpaceCollapse(s[1..]);
        NonSpaceCons(s[0], Collapse(s[1..]));
      }
    }
  }

  /** Lines 164-165: the text a decoded PDF is reduced to before its length is checked. */
  function Clean(decoded: string): (r: string)
    ensures IsNormal(r)
  {
    var c := Collapse(Sanitize(decoded));
    CollapseShape(Sanitize(decoded));
    Trim(c)
  }

  /** Lines 157-174: the PDF branch of extractText, applied to the decoded file text. */
  function ExtractPdf(decoded: string): (r: Result<string, string>)
    ensures r.Success? <==> |Clean(decoded)| >= MinTextChars
    ensures r.Failure? ==> r.error == FailurePrefix + NoTextMessage
    ensures r.Success? ==> MinTextChars <= |r.value| <= MaxTextChars
    ensures r.Success? ==> r.value <= Clean(decoded)
    ensures r.Success? && |r.value| < MaxTextChars ==> r.value == Clean(decoded)
  {
    var text := Clean(decoded);
    if |text| < MinTextChars then Failure(FailurePrefix + NoTextMessage) else Success(Prefix(text, MaxTextChars))
  }

  /**
   * What the PDF branch returns is printable ASCII with single spaces and no leading space;
   * it can end in a space only when the 50,000-character cut fell just after one.
   */
  lemma ExtractPdfShape(decoded: string)
    requires ExtractPdf(decoded).Success?
    ensures var v := ExtractPdf(decoded).value;
      && AllPrintable(v) && NoSpaceRun(v) && !IsSpace(v[0])
      && (IsSpace(v[|v| - 1]) ==> |Clean(decoded)| > MaxTextChars)
  {
    var t := Clean(decoded);
    var v := ExtractPdf(decoded).value;
    assert v == Prefix(t, MaxTextChars);
    assert forall i :: 0 <= i < |v| ==> v[i] == t[i];
  }

  // ---------------------------------------------------------------------------
  // An independent description of the cleaned text: its words joined by spaces
  // ---------------------------------------------------------------------------

  /** The length of the run of non-whitespace characters `s` starts with. */
  function WordLength(s: string): (n: nat)
    ensures n <= |s|
    ensures forall i :: 0 <= i < n ==> !IsSpace(s[i])
    ensures n < |s| ==> IsSpace(s[n])
    decreases |s|
  {
    if s == [] || IsSpace(s[0]) then 0 else 1 + WordLength(s[1..])
  }

  /** The maximal runs of non-whitespace characters of `s`, in order. */
  function Words(s: string): seq<string>
    decreases |s|
  {
    var t := TrimStart(s);
    if t == [] then []
    else
      var n := WordLength(t);
      [t[..n]] + Words(t[n..])
  }

  lemma {:induction false} CollapseNonSpacePrefix(w: string, x: string)
    requires NoSpaceIn(w)
    ensures Collapse(w + x) == w + Collapse(x)
    decreases |w|
  {
    if w == [] {
      assert w + x == x;
    } else {
      assert (w + x)[1..] == w[1..] + x;
      CollapseNonSpacePrefix(w[1..], x);
    }
  }

  lemma {:induction false} TrailingSpacesAppend(a: string, b: string)
    requires b != [] && !IsSpace(b[0])
    ensures TrailingSpaces(a + b) == TrailingSpaces(b)
    decreases |b|
  {
    if IsSpace(b[|b| - 1]) {
      assert (a + b)[..|a + b| - 1] == a + b[..|b| - 1];
      TrailingSpacesAppend(a, b[..|b| - 1]);
    }
  }

  lemma TrimEndAppend(a: string, b: string)
    requires b != [] && !IsSpace(b[0])
    ensures TrimEnd(a + b) == a + TrimEnd(b)
  {
    TrailingSpacesAppend(a, b);
    var n := TrailingSpaces(b);
    assert (a + b)[..|a + b| - n] == a + b[..|b| - n];
  }

  lemma TrimStartCollapse(t: string)
    ensures TrimStart(Collapse(t)) == Collapse(TrimStart(t))
  {
    if t != [] && IsSpace(t[0]) {
      var x := Collapse(TrimStart(t));
      assert LeadingSpaces([' '] + x) == 1 by {
        assert ([' '] + x)[1..] == x;
      }
    }
  }

  lemma WordsTrimStart(t: string)
    ensures Words(TrimStart(t)) == Words(t)
  {
    var u := TrimStart(t);
    assert LeadingSpaces(u) == 0;
    assert TrimStart(u) == u;
  }

  lemma JoinCons(w: string, ws: seq<string>, sep: string)
    requires ws != []
    ensures Join([w] + ws, sep) == w + sep + Join(ws, sep)
  {
    assert ([w] + ws)[1..] == ws;
  }

  /** How Collapse and Words both take the first word off `u`. */
  lemma FirstWord(u: string)
    requires u != [] && !IsSpace(u[0])
    ensures var n := WordLength(u);
      && Collapse(u) == u[..n] + Collapse(u[n..])
      && Words(u) == [u[..n]] + Words(TrimStart(u[n..]))
  {
    var n := WordLength(u);
    SplitAt(u, n);
    CollapseNonSpacePrefix(u[..n], u[n..]);
    assert TrimStart(u) == u;
    WordsTrimStart(u[n..]);
  }

  /** When `u` holds one word, possibly followed by whitespace, its collapsed form ends with that word. */
  lemma LastWord(u: string)
    requires u != [] && !IsSpace(u[0])
    requires TrimStart(u[WordLength(u)..]) == []
    ensures TrimEnd(Collapse(u)) == u[..WordLength(u)]
  {
    FirstWord(u);
    var n := WordLength(u);
    var w := u[..n];
    var rest := u[n..];
    assert TrailingSpaces(w) == 0;
    if rest != [] {
      var sp: string := [' '];
      assert Collapse(rest) == sp by {
        var e: string := [];
        assert TrimStart(rest) == e;
        assert Collapse(rest) == sp + Collapse(e);
      }
      AppendParts(w, sp);
      assert TrailingSpaces(w + sp) == 1;
    }
  }


  /** When a second word follows the first, the collapsed form is the first word, a space, and the rest. */
  lemma NextWord(u: string)
    requires u != [] && !IsSpace(u[0])
    requires TrimStart(u[WordLength(u)..]) != []
    ensures TrimEnd(Collapse(u)) == u[..WordLength(u)] + " " + TrimEnd(Collapse(TrimStart(u[WordLength(u)..])))
  {
    FirstWord(u);
    var n := WordLength(u);
    var w := u[..n];
    var rest := u[n..];
    var c := Collapse(TrimStart(rest));
    var sp: string := " ";
    assert Collapse(rest) == [' '] + c;
    AppendAssoc(w, sp, c);
    assert c != [] && !IsSpace(c[0]);
    TrimEndAppend(w + sp, c);
  }

  lemma {:induction false} TrimEndCollapse(u: string)
    requires u == [] || !IsSpace(u[0])
    ensures TrimEnd(Collapse(u)) == Join(Words(u), " ")
    decreases |u|
  {
    if u != [] {
      FirstWord(u);
      var w := u[..WordLength(u)];
      var u' := TrimStart(u[WordLength(u)..]);
      if u' == [] {
        LastWord(u);
        var e: string := [];
        assert Words(e) == [];
      } else {
        NextWord(u);
        TrimEndCollapse(u');
        assert Words(u') != [] by {
          assert TrimStart(u') == u';
        }
        JoinCons(w, Words(u'), " ");
      }
    }
  }

  /** The cleaned text is the words of the sanitized text, separated by single spaces. */
  lemma CleanIsJoinedWords(decoded: string)
    ensures Clean(decoded) == Join(Words(Sanitize(decoded)), " ")
  {
    var t := Sanitize(decoded);
    TrimStartCollapse(t);
    TrimEndCollapse(TrimStart(t));
    WordsTrimStart(t);
  }

  lemma {:induction false} CollapseOfCollapsed(x: string)
    requires forall i :: 0 <= i < |x| && IsSpace(x[i]) ==> x[i] == ' '
    requires NoSpaceRun(x)
    ensures Collapse(x) == x
    decreases |x|
  {
    if x != [] {
      CollapseOfCollapsed(x[1..]);
      if IsSpace(x[0]) {
        assert LeadingSpaces(x) == 1 by {
          assert LeadingSpaces(x[1..]) == 0;
        }
      }
    }
  }

  lemma SanitizeKept(s: string)
    requires AllKept(s)
    ensures Sanitize(s) == s
  {
  }

  lemma TrimUntrimmed(s: string)
    requires s == [] || (!IsSpace(s[0]) && !IsSpace(s[|s| - 1]))
    ensures Trim(s) == s
  {
    assert LeadingSpaces(s) == 0;
    assert TrailingSpaces(s) == 0;
  }

  /** Cleaning is idempotent: cleaned text goes through lines 164-165 unchanged. */
  lemma CleanIdempotent(decoded: string)
    ensures Clean(Clean(decoded)) == Clean(decoded)
  {
    var r := Clean(decoded);
    SanitizeKept(r);
    CollapseOfCollapsed(r);
    TrimUntrimmed(r);
  }

}

=== FILE: pipeline.dfy ===
/**
 * processFilesBackground up to the point where the job row is written: every file is
 * extracted in turn, each contributes one section to the combined text whether or not its
 * extraction succeeded, and the combined text is translated and then summarised.
 */
module Pipeline {
  import opened Wrappers
  import opened Strings
  import opened Externals
  import Json
  import Extraction
  import Generation
  import PdfText

  /** Lines 94 and 98: the line that opens each file's section. */
  function Header(name: string): (h: string)
    ensures |h| == |name| + 10
    ensures h[..5] == "\n--- " && h[5..5 + |name|] == name && h[5 + |name|..] == " ---\n"
  {
    "\n--- " + name + " ---\n"
  }

  const ErrorPlaceholder := "Error processing file: "
  const SectionSeparator := "\n\n"
  const MinCombinedChars := 10
  // Written in two pieces so that the verifier can read its first characters.
  const NoMeaningfulText := "No meaningful text " + "could be extracted from the files"

  /** Lines 92-99: a file's section, holding its text or, when extraction failed, the error message. */
  function Section(file: InputFile, openAiKey: Option<string>, p: Providers): string {
    Header(file.name) + match Extraction.ExtractText(file, openAiKey, p)
      case Success(t) => t
      case Failure(m) => ErrorPlaceholder + m
  }

  /** A section begins with its file's header and is therefore at least ten characters longer than the name. */
  lemma SectionStartsWithHeader(file: InputFile, openAiKey: Option<string>, p: Providers)
    ensures Header(file.name) <= Section(file, openAiKey, p)
    ensures |Section(file, openAiKey, p)| >= |file.name| + MinCombinedChars
  {
  }

  /**
   * Lines 88-100: the loop pushes one section per file, in order; a failing file does not stop
   * it. Built from the front, as the loop does, by appending the last file's section.
   */
  function Sections(files: seq<InputFile>, openAiKey: Option<string>, p: Providers): (ss: seq<string>)
    ensures |ss| == |files|
    ensures forall i :: 0 <= i < |files| ==> ss[i] == Section(files[i], openAiKey, p)
    decreases |files|
  {
    if files == [] then []
    else Sections(files[..|files| - 1], openAiKey, p) + [Section(files[|files| - 1], openAiKey, p)]
  }

  /** The same loop as a loop: a method that pushes each file's section in turn. */
  method CollectSections(files: seq<InputFile>, openAiKey: Option<string>, p: Providers) returns (ss: seq<string>)
    ensures |ss| == |files|
    ensures forall i :: 0 <= i < |files| ==> ss[i] == Section(files[i], openAiKey, p)
    ensures ss == Sections(files, openAiKey, p)
  {
    ss := [];
    for k := 0 to |files|
      invariant |ss| == k
      invariant forall i :: 0 <= i < k ==> ss[i] == Section(files[i], openAiKey, p)
    {
      ss := ss + [Section(files[k], openAiKey, p)];
    }
  }

  /** Line 102: the sections joined by blank lines. */
  function Combined(files: seq<InputFile>, openAiKey: Option<string>, p: Providers): string {
    Join(Sections(files, openAiKey, p), SectionSeparator)
  }

  /**
   * The check at line 105 rejects a combined text exactly when the batch is empty: one file's
   * header alone is ten characters. The submission step refuses empty batches before this runs.
   */
  lemma CombinedShortIffEmpty(files: seq<InputFile>, openAiKey: Option<string>, p: Providers)
    ensures |Combined(files, openAiKey, p)| < MinCombinedChars <==> files == []
    ensures files != [] ==> |Combined(files, openAiKey, p)| >= |files[0].name| + MinCombinedChars
  {
    var ss := Sections(files, openAiKey, p);
    if files != [] {
      JoinStartsWithFirst(ss, SectionSeparator);
      SectionStartsWithHeader(files[0], openAiKey, p);
    }
  }

  /** One more file adds a blank line and its own section at the end, leaving what came before unchanged. */
  lemma CombinedAppend(files: seq<InputFile>, file: InputFile, openAiKey: Option<string>, p: Providers)
    requires files != []
    ensures Combined(files + [file], openAiKey, p)
         == Combined(files, openAiKey, p) + SectionSeparator + Section(file, openAiKey, p)
  {
    var all := files + [file];
    assert all[..|all| - 1] == files;
    JoinSnoc(Sections(files, openAiKey, p), Section(file, openAiKey, p), SectionSeparator);
  }

  /** What a successful run hands to the completed-update at lines 120-129. */
  datatype Artifacts = Artifacts(transcription: string, translation: Json.Value, summary: Json.Value)

  /** The generateContent requests a run made, in order, and how it ended. */
  datatype Run = Run(requests: seq<GenerateRequest>, outcome: Result<Artifacts, string>)

  /** Lines 86-118: extraction, the length check, translation, then summary. */
  function RunPipeline(files: seq<InputFile>, geminiKey: string, openAiKey: Option<string>, p: Providers): (run: Run)
    ensures |run.requests| <= 2
    ensures forall i :: 0 <= i < |run.requests| ==>
      run.requests[i] == Generation.RequestFor(
        if i == 0 then Translation else Summary, Combined(files, openAiKey, p), geminiKey)
    ensures run.outcome.Success? ==>
      && |run.requests| == 2
      && run.outcome.value.transcription == Combined(files, openAiKey, p)
      && Json.Truthy(Some(run.outcome.value.translation))
      && Json.Truthy(Some(run.outcome.value.summary))
    ensures files == [] ==> run == Run([], Failure(NoMeaningfulText))
  {
    var combined := Combined(files, openAiKey, p);
    CombinedShortIffEmpty(files, openAiKey, p);
    if |combined| < MinCombinedChars then Run([], Failure(NoMeaningfulText))
    else
      var translationRequest := Generation.RequestFor(Translation, combined, geminiKey);
      var summaryRequest := Generation.RequestFor(Summary, combined, geminiKey);
      match Generation.Generate(Translation, combined, geminiKey, p)
      case Failure(e) => Run([translationRequest], Failure(e))
      case Success(translation) =>
        match Generation.Generate(Summary, combined, geminiKey, p)
        case Failure(e) => Run([translationRequest, summaryRequest], Failure(e))
        case Success(summary) =>
          Run([translationRequest, summaryRequest], Success(Artifacts(combined, translation, summary)))
  }

  /**
   * A run over a non-empty batch ends in success exactly when both calls succeed, and
   * otherwise with an error from the call that failed; the summary is asked for only after the
   * translation succeeded, and from the combined text, not from the translation.
   */
  lemma RunOutcome(files: seq<InputFile>, geminiKey: string, openAiKey: Option<string>, p: Providers)
    requires files != []
    ensures var run := RunPipeline(files, geminiKey, openAiKey, p);
      var combined := Combined(files, openAiKey, p);
      var t := Generation.Generate(Translation, combined, geminiKey, p);
      var s := Generation.Generate(Summary, combined, geminiKey, p);
      && (run.outcome.Success? <==> t.Success? && s.Success?)
      && (t.Failure? ==> |run.requests| == 1 && run.outcome == Failure(t.error)
                         && StartsWith(t.error, Generation.Label(Translation)))
      && (t.Success? ==> |run.requests| == 2)
      && (t.Success? && s.Failure? ==> run.outcome == Failure(s.error)
                                       && StartsWith(s.error, Generation.Label(Summary)))
      && (run.outcome.Success? ==> run.outcome.value == Artifacts(combined, t.value, s.value))
  {
    CombinedShortIffEmpty(files, openAiKey, p);
  }

  /**
   * Even when no file yields any text, a non-empty batch passes the line-105 check and the
   * combined text of error sections is sent for translation.
   */
  lemma AllFailingStillTranslated(files: seq<InputFile>, geminiKey: string, openAiKey: Option<string>, p: Providers)
    requires files != []
    requires forall i :: 0 <= i < |files| ==> Extraction.ExtractText(files[i], openAiKey, p).Failure?
    ensures var run := RunPipeline(files, geminiKey, openAiKey, p);
      && run.requests != []
      && run.requests[0].task == Translation
      && run.outcome != Failure(NoMeaningfulText)
    ensures forall i :: 0 <= i < |files| ==>
      Sections(files, openAiKey, p)[i]
        == Header(files[i].name) + ErrorPlaceholder + Extraction.ExtractText(files[i], openAiKey, p).error
  {
    CombinedShortIffEmpty(files, openAiKey, p);
    RunOutcome(files, geminiKey, openAiKey, p);
    var run := RunPipeline(files, geminiKey, openAiKey, p);
    if run.outcome.Failure? {
      var combined := Combined(files, openAiKey, p);
      var t := Generation.Generate(Translation, combined, geminiKey, p);
      var prefix := if t.Failure? then Generation.Label(Translation) else Generation.Label(Summary);
      assert prefix <= run.outcome.error;
      assert prefix[0] != NoMeaningfulText[0];
    }
    forall i | 0 <= i < |files|
      ensures Sections(files, openAiKey, p)[i]
        == Header(files[i].name) + ErrorPlaceholder + Extraction.ExtractText(files[i], openAiKey, p).error
    {
      AppendAssoc(Header(files[i].name), ErrorPlaceholder, Extraction.ExtractText(files[i], openAiKey, p).error);
    }
  }

  /**
   * A batch of one PDF whose text is accepted: the combined text, which becomes the job's
   * transcription, is that file's header followed by its cleaned text.
   */
  lemma SinglePdfCombined(file: InputFile, openAiKey: Option<string>, p: Providers)
    requires file.mediaType == Extraction.PdfType
    requires PdfText.ExtractPdf(p.decodeUtf8(file.content)).Success?
    ensures Combined([file], openAiKey, p) == Header(file.name) + PdfText.ExtractPdf(p.decodeUtf8(file.content)).value
  {
    assert Sections([file], openAiKey, p) == [Section(file, openAiKey, p)];
  }
}

=== FILE: strings.dfy ===
/** The few JavaScript string operations the pipeline relies on. */
module Strings {

  /** `s.startsWith(p)` */
  predicate StartsWith(s: string, p: string) {
    p <= s
  }

  /** `s.slice(0, n)`: the first `n` characters, or all of `s` when it is shorter. */
  function Prefix(s: string, n: nat): (r: string)
    ensures r <= s
    ensures |r| == if |s| <= n then |s| else n
  {
    if |s| <= n then s else s[..n]
  }

  /** `parts.join(sep)` */
  function Join(parts: seq<string>, sep: string): string
    decreases |parts|
  {
    if |parts| == 0 then ""
    else if |parts| == 1 then parts[0]
    else parts[0] + sep + Join(parts[1..], sep)
  }

  /** Joining one more part appends the separator and that part: `join` keeps the order of its parts. */
  lemma {:induction false} JoinSnoc(parts: seq<string>, last: string, sep: string)
    requires |parts| > 0
    ensures Join(parts + [last], sep) == Join(parts, sep) + sep + last
    decreases |parts|
  {
    if |parts| == 1 {
      assert (parts + [last])[1..] == [last];
    } else {
      assert (parts + [last])[1..] == parts[1..] + [last];
      JoinSnoc(parts[1..], last, sep);
    }
  }

  /** The joined text begins with the first part. */
  lemma JoinStartsWithFirst(parts: seq<string>, sep: string)
    requires |parts| > 0
    ensures parts[0] <= Join(parts, sep)
  {
    if |parts| > 1 {
      AppendAssoc(parts[0], sep, Join(parts[1..], sep));
      AppendParts(parts[0], sep + Join(parts[1..], sep));
    }
  }

  // Small facts about concatenation, stated once here so that proofs with many
  // definitions in scope need not rediscover them.

  lemma AppendAssoc(a: string, b: string, c: string)
    ensures a + (b + c) == (a + b) + c
  {
  }

  lemma SplitAt(s: string, n: nat)
    requires n <= |s|
    ensures s[..n] + s[n..] == s
  {
  }

  lemma AppendParts(a: string, b: string)
    ensures (a + b)[..|a|] == a
    ensures (a + b)[|a|..] == b
  {
  }

  function Digit(d: nat): (c: char)
    requires d < 10
    ensures '0' <= c <= '9'
  {
    "0123456789"[d]
  }

  /** `${n}` for a non-negative integer: its decimal digits. */
  function DecimalString(n: nat): (r: string)
    ensures |r| > 0
    ensures forall i :: 0 <= i < |r| ==> '0' <= r[i] <= '9'
    ensures |r| > 1 ==> r[0] != '0'
  {
    if n < 10 then [Digit(n)] else DecimalString(n / 10) + [Digit(n % 10)]
  }

  /** The number a string of decimal digits denotes. */
  function DecimalValue(s: string): nat
    requires forall i :: 0 <= i < |s| ==> '0' <= s[i] <= '9'
    decreases |s|
  {
    if s == [] then 0 else 10 * DecimalValue(s[..|s| - 1]) + (s[|s| - 1] as int - '0' as int)
  }

  /** `${n}` is read back as `n`: the status in an error message is the status the reply carried. */
  lemma {:induction false} DecimalRoundTrip(n: nat)
    ensures DecimalValue(DecimalString(n)) == n
  {
    if n >= 10 {
      var r := DecimalString(n);
      DecimalRoundTrip(n / 10);
      assert r[..|r| - 1] == DecimalString(n / 10);
    }
  }
}

=== FILE: submission.dfy ===
/**
 * The request handler (lines 16-76): resolve the two keys, validate the batch, create the job
 * row, and hand the batch to the background run. The environment variables and the id the
 * store gives the new row are parameters.
 */
module Submission {
  import opened Wrappers
  import opened Externals
  import Pipeline
  import Jobs
  import Generation

  /** Lines 29-30: `userKey || envKey`. A user key counts only when it is non-empty. */
  function ResolveKey(userKey: Option<string>, envKey: Option<string>): (k: Option<string>)
    ensures Present(k) <==> Present(userKey) || Present(envKey)
    ensures Present(userKey) ==> k == userKey
    ensures !Present(userKey) ==> k == envKey
  {
    if Present(userKey) then userKey else envKey
  }

  /** `GEMINI_API_KEY` and `OPENAI_API_KEY` from the server's environment. */
  datatype Environment = Environment(geminiKey: Option<string>, openAiKey: Option<string>)

  /** The form fields: the `files` entries and the two optional keys. */
  datatype Request = Request(files: seq<InputFile>, geminiKey: Option<string>, openAiKey: Option<string>)

  /** Line 64's arguments: the job, and the keys the background run will use. */
  datatype Accepted = Accepted(id: Jobs.JobId, store: Jobs.JobStore, geminiKey: string, openAiKey: Option<string>)

  const MissingGeminiKey := "Gemini API key is required. " + "Please provide your API key in settings."
  const NoFiles := "No files provided"
  const CreateFailedPrefix := "Failed to create processing job: "

  /** Line 50: `files.map(f => f.name)` */
  function FileNames(files: seq<InputFile>): (names: seq<string>)
    ensures |names| == |files|
    ensures forall i :: 0 <= i < |files| ==> names[i] == files[i].name
  {
    seq(|files|, i requires 0 <= i < |files| => files[i].name)
  }

  /**
   * Lines 29-61. `inserted` is the store's reply to the insert: the new row's id, or the
   * insert's error message. The Gemini key is checked first, then the batch, and only then is a
   * row written.
   */
  function Submit(req: Request, env: Environment, store: Jobs.JobStore, inserted: Result<Jobs.JobId, string>): (r: Result<Accepted, string>)
    ensures !Present(ResolveKey(req.geminiKey, env.geminiKey)) ==> r == Failure(MissingGeminiKey)
    ensures Present(ResolveKey(req.geminiKey, env.geminiKey)) && req.files == [] ==> r == Failure(NoFiles)
    ensures r.Success? ==>
      && Present(ResolveKey(req.geminiKey, env.geminiKey))
      && req.files != []
      && inserted.Success?
      && r.value.id == inserted.value
      && r.value.store == store[inserted.value := Jobs.NewJob(FileNames(req.files))]
      && Some(r.value.geminiKey) == ResolveKey(req.geminiKey, env.geminiKey)
      && r.value.openAiKey == ResolveKey(req.openAiKey, env.openAiKey)
    ensures r.Failure? && inserted.Failure? && Present(ResolveKey(req.geminiKey, env.geminiKey)) && req.files != [] ==>
      r.error == CreateFailedPrefix + inserted.error
    ensures Present(ResolveKey(req.geminiKey, env.geminiKey)) && req.files != [] && inserted.Success? ==>
      r.Success?
  {
    var geminiKey := ResolveKey(req.geminiKey, env.geminiKey);
    var openAiKey := ResolveKey(req.openAiKey, env.openAiKey);
    if !Present(geminiKey) then Failure(MissingGeminiKey)
    else if req.files == [] then Failure(NoFiles)
    else
      match inserted
      case Failure(m) => Failure(CreateFailedPrefix + m)
      case Success(id) => Success(Accepted(id, store[id := Jobs.NewJob(FileNames(req.files))], geminiKey.value, openAiKey))
  }

  /** The handler's reply: `{ jobId }`, or status 500 with `{ error }`. */
  datatype Response = JobCreated(jobId: Jobs.JobId) | ServerError(message: string)

  /**
   * The whole request, with the background run carried out to its end: the reply, and the store
   * after the run has written its outcome.
   */
  function Handle(req: Request, env: Environment, store: Jobs.JobStore, inserted: Result<Jobs.JobId, string>,
                  p: Providers, write: Jobs.Update -> Option<string>): (out: (Response, Jobs.JobStore))
    ensures out.0.ServerError? ==> out.1 == store
    ensures out.0.JobCreated? ==>
      && inserted == Success(out.0.jobId)
      && out.1.Keys == store.Keys + {out.0.jobId}
      && (forall k :: k in store && k != out.0.jobId ==> out.1[k] == store[k])
      && out.1[out.0.jobId].fileNames == FileNames(req.files)
  {
    match Submit(req, env, store, inserted)
    case Failure(m) => (ServerError(m), store)
    case Success(a) =>
      assert a.store == store[a.id := Jobs.NewJob(FileNames(req.files))];
      (JobCreated(a.id), Jobs.RunJob(a.store, a.id, req.files, a.geminiKey, a.openAiKey, p, write))
  }

  /**
   * A request is rejected before any row is written when no Gemini key is available, whatever
   * the batch holds, and, with a key, when the batch is empty.
   */
  lemma RejectionsComeFirst(req: Request, env: Environment, store: Jobs.JobStore, inserted: Result<Jobs.JobId, string>,
                            p: Providers, write: Jobs.Update -> Option<string>)
    requires !Present(ResolveKey(req.geminiKey, env.geminiKey)) || req.files == []
    ensures var out := Handle(req, env, store, inserted, p, write);
      && out.1 == store
      && out.0 == ServerError(if !Present(ResolveKey(req.geminiKey, env.geminiKey)) then MissingGeminiKey else NoFiles)
  {
  }

  /**
   * End to end, with a store that accepts every write: an accepted request's job ends completed
   * exactly when both Gemini calls on the combined text succeed, and then holds that text as its
   * transcription and the two calls' values as its translation and summary; otherwise it ends failed with a Gemini error, never with the line-105 error.
   */
  lemma HandleEndToEnd(req: Request, env: Environment, store: Jobs.JobStore, id: Jobs.JobId, p: Providers)
    requires Present(ResolveKey(req.geminiKey, env.geminiKey)) && req.files != []
    ensures var out := Handle(req, env, store, Success(id), p, Jobs.Accepting());
      var openAiKey := ResolveKey(req.openAiKey, env.openAiKey);
      var geminiKey := ResolveKey(req.geminiKey, env.geminiKey).value;
      var combined := Pipeline.Combined(req.files, openAiKey, p);
      var job := out.1[id];
      && out.0 == JobCreated(id)
      && job.fileNames == FileNames(req.files)
      && (job.status == Jobs.Completed <==>
            Generation.Generate(Translation, combined, geminiKey, p).Success?
            && Generation.Generate(Summary, combined, geminiKey, p).Success?)
      && (job.status == Jobs.Completed ==>
            && job.transcription == Some(combined)
            && job.translation == Some(Generation.Generate(Translation, combined, geminiKey, p).value)
            && job.summary == Some(Generation.Generate(Summary, combined, geminiKey, p).value))
      && (job.status != Jobs.Completed ==>
            (job.status == Jobs.Failed && job.transcription.None?
             && job.error.Some? && job.error.value != Pipeline.NoMeaningfulText))
  {
    var openAiKey := ResolveKey(req.openAiKey, env.openAiKey);
    var geminiKey := ResolveKey(req.geminiKey, env.geminiKey).value;
    var combined := Pipeline.Combined(req.files, openAiKey, p);
    var run := Pipeline.RunPipeline(req.files, geminiKey, openAiKey, p);
    Pipeline.RunOutcome(req.files, geminiKey, openAiKey, p);
    Jobs.FinishReachesTerminal(Jobs.NewJob(FileNames(req.files)), run.outcome);
    if run.outcome.Failure? {
      var e := run.outcome.error;
      var t := Generation.Generate(Translation, combined, geminiKey, p);
      var prefix := if t.Failure? then Generation.Label(Translation) else Generation.Label(Summary);
      assert prefix <= e;
      assert prefix[0] != Pipeline.NoMeaningfulText[0];
    }
  }
}

=== FILE: wrappers.dfy ===
/** Option and Result, the model's stand-ins for JavaScript's absent values and thrown errors. */
module Wrappers {

  /** `None` stands for `undefined` or `null`. */
  datatype Option<+T> = None | Some(value: T)

  /** `Failure(message)` stands for a thrown `Error` whose `message` is `message`. */
  datatype Result<+T, +E> = Success(value: T) | Failure(error: E)
}
